=== FILE: README.md ===
# Trade aggregation engine — Dafny model

This project models the core of a trading demo's aggregation engine
(`TradeSystem`): the **ingestion buffer** of pending trade events, the
**aggregate store** of per-company running totals and its transaction count,
one **drain-loop cycle** of `processPendingTransactions` (drain, fold, build a
summary, pick the next poll delay), the **ranked summary** and its
**deduplicating publisher**, and the **tab-delimited snapshot codec**. It also
models the small cursor machine of `TestData`, which cycles through fixed
lists of fake companies and trade values.

Everything is pure: the engine is an immutable `TradeSystem` value, and one drain
cycle is a function from one state to the next. It returns the summary sent to
the subject, the summary that passed `removeDuplicates`, and the next poll
delay in milliseconds.

Modules, one per component:

- `Ledger` (ledger.dfy): events, the store, folding one event and a batch, the sum of all totals.
- `Buffer` (buffer.dfy): append and drain, and a trace showing no event is lost or duplicated.
- `Ranking` (ranking.dfy): the top-`n` ranking, specified relationally as `IsRankedTop` and computed for every dictionary iteration order.
- `Summaries` (summary.dfy): `TradeSummary`, its counter-only `==`, and `removeDuplicates`.
- `Engine` (engine.dfy): the facade operations and one drain cycle; command traces and conservation.
- `Text` (text.dfy): Swift's `split(separator:)`, `String(Int)` and `Int(String)`.
- `Snapshot` (snapshot.dfy): `serializeTabDelimited` and `init(tabDelimitedString:)`, with the round trip.
- `TestData` (testdata.dfy): cursors, `generateTrade`, and the generators with their random draws as inputs.
- `Scenarios` (scenarios.dfy): worked cases (ties in the ranking, export then import, duplicate rows).
- `Options` (options.dfy): the optional type used for Swift's `T?`.

Design choices:

- **Unspecified order.** Swift dictionaries iterate in an unspecified order, and `sorted` promises no order among equal totals. So `RankWith` and `SerializeWith` take the iteration order as a parameter and are proved for every order. The engine itself uses `Enumerate`, a fixed but unspecified order chosen by Hilbert choice. No tie-break rule is imposed.
- **Counter-only equality.** Combine's `removeDuplicates` compares each summary with the one received just before it. Because the counter-only `==` is an equivalence, this means no two consecutive published summaries are equal (`RemoveDuplicatesNoRepeats`). `publisher` is a computed property, so every subscriber gets its own `removeDuplicates` that starts with no previous element. The engine's `lastSent` models the single subscriber that TradingDemo/Model/ContentViewModel.swift attaches right after construction, before any summary is sent. Further subscribers are not modelled.
- **Two behaviours of the code worth noting:**
  - Importing a snapshot (`init(tabDelimitedString:)`) builds a brand-new engine, so the transaction count is 0 afterwards.
  - Rows in the text are ignored only when they have fewer than two tab-separated fields. Empty fields are dropped before counting, because `split` omits empty pieces.

## Model

| member | source | states |
|---|---|---|
| Ledger.Total | TradingDemo/Services/TradeSystem.swift:140 | `trades[id, default: 0]`; `Ledger.Apply` states its use in a fold step |
| Ledger.Apply | TradingDemo/Services/TradeSystem.swift:139-142 | folding one event sets its company's total to the old total (0 if absent) plus the value, adds exactly 1 to the transaction count, and leaves every other company's total unchanged |
| Ledger.Fold | TradingDemo/Services/TradeSystem.swift:107-113 | folding a batch in order adds the batch length to the count, adds the batch's companies to the store, and raises each company's total by the sum of that company's values in the batch |
| Ledger.FoldConservesSum | TradingDemo/Services/TradeSystem.swift:111-113 | folding a batch raises the sum of all totals by the sum of all values in the batch |
| Ledger.FoldConcat | TradingDemo/Services/TradeSystem.swift:111-113 | folding two batches one after another is the same as folding their concatenation |
| Buffer.Append | TradingDemo/Services/TradeSystem.swift:43-46 | `execute_trade` puts the event at the end of the buffer and keeps the earlier events in place |
| Buffer.Drain | TradingDemo/Services/TradeSystem.swift:87-90 | a drain returns exactly the prior buffer contents, in append order, and leaves the buffer empty |
| Buffer.EveryEventDrainedOnce | TradingDemo/Services/TradeSystem.swift:87-90 | over any sequence of appends and drains, the drained events followed by the pending ones are exactly the submitted events, in submission order: none lost, none duplicated |
| Buffer.DrainedAfterFinalDrain | TradingDemo/Services/TradeSystem.swift:87-90 | after a final drain, the buffer is empty and the drained events are exactly the submitted events |
| Ranking.SortDescending | TradingDemo/Services/TradeSystem.swift:63-64 | sorting by total yields a non-increasing permutation of the entries |
| Ranking.Enumerate | TradingDemo/Services/TradeSystem.swift:176 | some iteration order of the dictionary lists every key exactly once |
| Ranking.RankWith | TradingDemo/Services/TradeSystem.swift:63-65 | for ANY iteration order, the sorted prefix of `n` has min(n, company count) entries, is non-increasing, holds only store entries with no company repeated, and no omitted company has a larger total than an included one |
| Ranking.Rank | TradingDemo/Services/TradeSystem.swift:126-128 | the ranking over the store's own iteration order satisfies the same top-`n` relation |
| Summaries.Same | TradingDemo/Services/TradeSystem.swift:154-157 | `TradeSummary.==`; its meaning is stated by `Summaries.SameIffCountersAgree` and `Summaries.SameIsEquivalence` |
| Summaries.SameIffCountersAgree | TradingDemo/Services/TradeSystem.swift:154-157 | two summaries are equal iff both counters agree; replacing the ranked list never changes the answer |
| Summaries.SameIsEquivalence | TradingDemo/Services/TradeSystem.swift:154-157 | the custom equality is reflexive, symmetric and transitive |
| Summaries.Summarize | TradingDemo/Services/TradeSystem.swift:125-132 | a summary holds a top-`n` ranking of the store, its transaction count, and its company count |
| Summaries.Filter | TradingDemo/Services/TradeSystem.swift:29-33 | a summary is suppressed exactly when it is equal (counters only) to the previous one received |
| Summaries.RemoveDuplicates | TradingDemo/Services/TradeSystem.swift:29-33 | `removeDuplicates` over a stream never lengthens it; `RemoveDuplicatesConcat` states that it is an in-order filter (the output of a stream is the output of its prefix followed by the output of the rest against the prefix's last element, so with `Filter` every output is fixed, order and repeats included), `RemoveDuplicatesKeepsChanges` that every summary differing from the one received before it is kept, and `RemoveDuplicatesNoRepeats` that no repeat survives |
| Summaries.RemoveDuplicatesConcat | TradingDemo/Services/TradeSystem.swift:29-33 | filtering two streams one after the other equals filtering their concatenation, the second stream compared against the last element of the first: the filter works in order, element by element |
| Summaries.RemoveDuplicatesKeepsChanges | TradingDemo/Services/TradeSystem.swift:29-33 | every summary that is not equal (counters only) to the one received just before it is published |
| Summaries.RemoveDuplicatesSubset | TradingDemo/Services/TradeSystem.swift:29-33 | everything published was sent |
| Summaries.RemoveDuplicatesNoRepeats | TradingDemo/Services/TradeSystem.swift:29-33 | no two consecutive published summaries are equal, and the first differs from the summary received before |
| Summaries.RemoveDuplicatesKeepsIncreasing | TradingDemo/Services/TradeSystem.swift:29-33 | a stream with strictly increasing transaction counts is published unfiltered |
| Engine.ExecuteTrade | TradingDemo/Services/TradeSystem.swift:43-46 | submitting a trade appends its event to the buffer, changes nothing else, and keeps the engine invariant |
| Engine.UpdateSummaryItemCount | TradingDemo/Services/TradeSystem.swift:50-54 | only the summary size changes, to the given count |
| Engine.PrintTopStocks | TradingDemo/Services/TradeSystem.swift:57-75 | the query returns a top-`n` ranking of the store with the current transaction and company counts |
| Engine.ProcessPendingTransactions | TradingDemo/Services/TradeSystem.swift:80-105 | a cycle empties the buffer. On an empty batch the engine is unchanged (store, summary size and the last summary the publisher received), nothing is sent or published, and the next poll is 500 ms. On a non-empty batch the store is the fold of the batch. One summary is sent: a top ranking of min(`summaryItemCount`, company count) entries with the new counters. It also becomes the publisher's last received summary, and the next poll is 100 ms. For a valid engine (every reachable state) that summary is also published |
| Engine.Exec | TradingDemo/Services/TradeSystem.swift:43-105 | one public operation or timer firing as a step that keeps the summary size non-negative; `Engine.ExecConserves` states what a step preserves |
| Engine.Run | TradingDemo/Services/TradeSystem.swift:101-104 | a sequence of steps from a given engine, collecting what is published; `Engine.RunConserves` and `Engine.PublishedCountsIncrease` state its properties |
| Engine.ExecConserves | TradingDemo/Services/TradeSystem.swift:80-120 | each command accounts for exactly the event it submits, in count and in value sum. It keeps the invariant, never lowers the count, and publishes only a summary whose count is above the count before |
| Engine.RunConserves | TradingDemo/Services/TradeSystem.swift:80-120 | over any command sequence, folded plus pending events grow by the number of trades submitted, and total plus pending values grow by the sum of submitted values |
| Engine.ConservationFromInitial | TradingDemo/Services/TradeSystem.swift:16-20 | from a new engine, after a final poll, the transaction count equals the number of trades submitted and the sum of totals equals the sum of their values |
| Engine.PublishedCountsIncrease | TradingDemo/Services/TradeSystem.swift:123-141 | published summaries arrive with strictly increasing transaction counts, all between the starting and the current count |
| Text.Split | TradingDemo/Services/TradeSystem.swift:186-187 | every piece is non-empty and free of the separator, and the empty string has no pieces |
| Text.SplitKeepsContent | TradingDemo/Services/TradeSystem.swift:186-187 | the pieces laid end to end are the input with its separators removed: no character other than a separator is lost, reordered or duplicated |
| Text.SplitLeadingSeparator | TradingDemo/Services/TradeSystem.swift:186-187 | a leading separator yields no piece, because empty subsequences are omitted. With `SplitCons` and `SplitSingle` this fixes the pieces of every input |
| Text.SplitLeadingSeparators | TradingDemo/Services/TradeSystem.swift:186-187 | any run of separators in front yields no piece |
| Text.OneFieldBetweenSeparators | TradingDemo/Services/TradeSystem.swift:187 | one separator-free field between any runs of separators is one piece, or none when the field is empty |
| Text.SplitCons | TradingDemo/Services/TradeSystem.swift:186-187 | a non-empty, separator-free piece followed by the separator splits off as one piece |
| Text.SplitSingle | TradingDemo/Services/TradeSystem.swift:187 | a non-empty, separator-free string is a single piece |
| Text.SplitWithoutSeparator | TradingDemo/Services/TradeSystem.swift:187-188 | a string without the separator has at most one piece |
| Text.NatToDigits | TradingDemo/Services/TradeSystem.swift:177 | decimal digits without leading zeros whose value is the number |
| Text.IntToString | TradingDemo/Services/TradeSystem.swift:177 | the canonical decimal form: a non-negative integer prints as digits whose value it is, without leading zeros; a negative one prints as `-` then the digits of its magnitude, without leading zeros. So it carries no tab or newline |
| Text.ParseInt | TradingDemo/Services/TradeSystem.swift:189 | the text parses iff it is an optional `+` or `-` followed by at least one digit; unsigned and `+` numerals give their value, `-` numerals its negation, and leading zeros are allowed |
| Text.ParseIntToString | TradingDemo/Services/TradeSystem.swift:189 | parsing a printed integer gives back that integer |
| Text.ParseIntRejects | TradingDemo/Services/TradeSystem.swift:189 | a string holding a character that is neither a digit nor a sign does not parse |
| Snapshot.Line | TradingDemo/Services/TradeSystem.swift:177 | one `id<TAB>total<NEWLINE>` record; `Snapshot.DecodeWrittenRow` states that it reads back as its record |
| Snapshot.LinesOf | TradingDemo/Services/TradeSystem.swift:175-178 | the records in iteration order; `Snapshot.SplitLines` states that they split back into one row per entry |
| Snapshot.SerializeWith | TradingDemo/Services/TradeSystem.swift:173-180 | for any iteration order, the result is nil iff the store is empty. Otherwise the text parses back to the same totals when every id is non-empty and free of tabs and newlines |
| Snapshot.SerializeTabDelimited | TradingDemo/Services/TradeSystem.swift:162-181 | the engine's snapshot is nil iff it holds no companies, and otherwise reads back as its totals |
| Snapshot.DecodeRow | TradingDemo/Services/TradeSystem.swift:187-189 | a decoded record names a non-empty, tab-free company; `Snapshot.DecodeRowFields` and `Snapshot.RowWithOneFieldSkipped` state which rows decode and to what |
| Snapshot.LoadRows | TradingDemo/Services/TradeSystem.swift:186-190 | loading rows never removes a company; `Snapshot.LastRowWins` and `Snapshot.UntouchedByRows` state each company's resulting total |
| Snapshot.ParseTrades | TradingDemo/Services/TradeSystem.swift:185-191 | empty text gives no totals; `Snapshot.RoundTrip` and `Snapshot.ParsedIdsComeFromRows` state what other text gives |
| Snapshot.FromTabDelimited | TradingDemo/Services/TradeSystem.swift:183-192 | the new engine has an empty buffer, transaction count 0, summary size 5, and no totals when the text is empty |
| Snapshot.RowWithOneFieldSkipped | TradingDemo/Services/TradeSystem.swift:187-188 | a row with fewer than two non-empty fields is skipped: one tab-free field, or none, between any runs of tabs (`id`, `id<TAB>`, `<TAB>id`, `<TAB><TAB>`) |
| Snapshot.DecodeRowFields | TradingDemo/Services/TradeSystem.swift:187-189 | a row `id<TAB>value[<TAB>…]` records `id` with the parsed value, or 0 if it is not an integer; fields beyond the second are ignored |
| Snapshot.DecodeWrittenRow | TradingDemo/Services/TradeSystem.swift:177 | a row written by the serializer decodes to exactly its record |
| Snapshot.LastRowWins | TradingDemo/Services/TradeSystem.swift:186-190 | when an id repeats, its total is the value of the last row that names it |
| Snapshot.UntouchedByRows | TradingDemo/Services/TradeSystem.swift:186-190 | an id no row names keeps its starting total, or stays absent |
| Snapshot.ParsedIdsComeFromRows | TradingDemo/Services/TradeSystem.swift:186-190 | every company in parsed text is named by some decoded row |
| Snapshot.SplitLines | TradingDemo/Services/TradeSystem.swift:176-178 | splitting the serialized text at newlines yields one row per entry, in the written order |
| Snapshot.RoundTrip | TradingDemo/Services/TradeSystem.swift:183-192 | parsing the serialized text of a non-empty store with representable ids reproduces the store exactly |
| Scenarios.TopTwoOfTiedTotals | TradingDemo/Services/TradeSystem.swift:63-65 | for totals {A:50, B:-10, C:50, D:0} and n = 2, every valid ranking holds exactly A and C |
| Scenarios.TopTwoOfTwo | TradingDemo/Services/TradeSystem.swift:63-65 | the top two of {ABC:120, XYZ:-40} are ABC then XYZ |
| Scenarios.ExportImportRanks | TradingDemo/Services/TradeSystem.swift:162-192 | exporting {ABC:120, XYZ:-40} gives text, and importing that text again ranks ABC (120) before XYZ (-40) |
| Scenarios.SignedNumerals | TradingDemo/Services/TradeSystem.swift:189 | `+5` parses to 5 and `-007` to -7; `-`, `5-` and `+-1` do not parse |
| Scenarios.RepeatedIdOverwrites | TradingDemo/Services/TradeSystem.swift:186-190 | two rows for one id leave the second row's value, not the sum |
| TestData.NameOf | TradingDemo/Services/TestData.swift:50-54 | the letters drawn spell a name of three or four capital letters |
| TestData.GenerateCompanies | TradingDemo/Services/TestData.swift:46-59 | 3000 names, each of three or four letters A–Z, each spelled by its draw |
| TestData.GenerateTrades | TradingDemo/Services/TestData.swift:61-69 | 437 values, each a draw from [-500, 500] plus 30, so each lies in [-470, 530] |
| TestData.Start | TradingDemo/Services/TestData.swift:14-17 | the instance holds the given lists and both cursors start at 0, inside both lists |
| TestData.IncrementCompanyPointer | TradingDemo/Services/TestData.swift:28-33 | the company cursor moves to (p + 1) mod the number of companies; nothing else changes |
| TestData.IncrementTradePointer | TradingDemo/Services/TestData.swift:35-40 | the trade cursor moves to (p + 1) mod the number of trade values; nothing else changes |
| TestData.GenerateTrade | TradingDemo/Services/TestData.swift:21-26 | returns the company and value under the cursors, read before they move. Both cursors then advance by one with wrap-around and stay in range |
| TestData.GenerateMany | TradingDemo/Services/TestData.swift:21-26 | after any number of calls the cursors are still in range and the lists are unchanged |
| TestData.CursorsAfter | TradingDemo/Services/TestData.swift:28-40 | starting from 0, after k calls the cursors are k mod the number of companies and k mod the number of trade values |
| TestData.TradesAfter | TradingDemo/Services/TestData.swift:21-26 | starting from 0, the i-th trade pairs company i mod the number of companies with value i mod the number of trade values |

## Left out

- Dispatch queues, dispatch groups, the `asyncAfter` rescheduling and the never-ending loop are left out. These are concurrency and timing, so one cycle is modelled as a pure step. The two serialization domains show up only in that each step is atomic.
- Combine's `PassthroughSubject` delivery to subscribers is left out. "Published" is the optional output of a step after the `removeDuplicates` filter.
- The poll delays are `TimeInterval` seconds in the program. Here they are integer milliseconds, 100 and 500.
- Swift `Int` overflow is not modelled: totals, counts and parsed integers are unbounded. So `Int(String)` returning nil on overflow is not modelled either.
- Text.ParseInt: does not model the nil result for values outside the 64-bit range, because integers here are unbounded.
- Swift `Character`, grapheme clusters and canonical equivalence are not modelled. For example `"\r\n"` is one character in Swift, and `"é"` and `"e\u0301"` are the same dictionary key (one company) in Swift but two companies here. Strings are sequences of `char`, compared element by element.
- Engine.Exec: traces carry only non-negative sizes (`Resize(count: nat)`), so a trace such as resize(-1), trade, resize(5), poll cannot be written, although it runs without a trap in the program. A negative size traps only if it is still set at a non-empty drain. No code in the program calls `updateSummaryItemCount`.
- Engine.UpdateSummaryItemCount: accepts any integer, as the program does. A negative size traps in `prefix` at the next non-empty drain, so `Engine.ProcessPendingTransactions` and `Engine.PrintTopStocks` require a size of at least 0 instead of modelling the trap.
- The random choices in `generateCompanies` and `generateTrades` are not modelled. They become input draws limited to the ranges of `Int.random` and `randomElement`.
- The event producer (TradeSpawner.swift) is not part of this model. It is detached tasks, `usleep` and random burst sizes. Its pause `1_000_000 * (UInt32.random(in: 1...5) / 10)` is always 0 because of integer division.
- The view model, the SwiftUI view and the app entry point are not part of this model: they are UI binding and bootstrapping.

=== FILE: buffer.dfy ===
/** The ingestion buffer (`pendingTrades`): events wait here, in submission
    order, until a drain moves all of them out at once. */
module Buffer {
  import opened Ledger

  /** `execute_trade`: the new event goes to the end, the earlier events stay
      where they were. */
  function Append(pending: seq<Event>, id: string, value: int): (r: seq<Event>)
    ensures |r| == |pending| + 1
    ensures r[..|pending|] == pending && r[|pending|] == Event(id, value)
  {
    pending + [Event(id, value)]
  }

  /** The result of a drain: the batch taken out and the buffer left behind. */
  datatype Drained = Drained(batch: seq<Event>, rest: seq<Event>)

  /** The drain of `processPendingTransactions`: the batch is exactly the prior
      contents, in append order, and the buffer is left empty. */
  function Drain(pending: seq<Event>): (r: Drained)
    ensures r.batch + r.rest == pending
    ensures r.rest == []
  {
    Drained(pending, [])
  }

  /** What can happen to the buffer: a submission or a drain. */
  datatype Op = Submit(id: string, value: int) | TakeAll

  /** The events submitted by a sequence of operations, in order. */
  function Submitted(ops: seq<Op>): seq<Event>
  {
    if ops == [] then []
    else
      var last := ops[|ops| - 1];
      Submitted(ops[..|ops| - 1]) + (if last.Submit? then [Event(last.id, last.value)] else [])
  }

  /** The buffer contents and the concatenation of all drained batches after
      running `ops` on an empty buffer. */
  datatype History = History(pending: seq<Event>, drained: seq<Event>)

  function Run(ops: seq<Op>): History
  {
    if ops == [] then History([], [])
    else
      var h := Run(ops[..|ops| - 1]);
      match ops[|ops| - 1]
      case Submit(id, value) => History(Append(h.pending, id, value), h.drained)
      case TakeAll =>
        var d := Drain(h.pending);
        History(d.rest, h.drained + d.batch)
  }

  /** No event is lost or duplicated: the drained events followed by the ones
      still pending are exactly the submitted events, in submission order. */
  lemma {:induction false} EveryEventDrainedOnce(ops: seq<Op>)
    ensures Run(ops).drained + Run(ops).pending == Submitted(ops)
  {
    if ops != [] {
      var init := ops[..|ops| - 1];
      EveryEventDrainedOnce(init);
      var h := Run(init);
      match ops[|ops| - 1]
      case Submit(id, value) =>
        assert h.drained + (h.pending + [Event(id, value)])
            == (h.drained + h.pending) + [Event(id, value)];
      case TakeAll =>
        assert (h.drained + h.pending) + [] == h.drained + h.pending;
    }
  }

  /** Once the last operation is a drain, every submitted event has been
      drained exactly once and in order. */
  lemma DrainedAfterFinalDrain(ops: seq<Op>)
    requires ops != [] && ops[|ops| - 1] == TakeAll
    ensures Run(ops).pending == []
    ensures Run(ops).drained == Submitted(ops)
  {
    EveryEventDrainedOnce(ops);
  }
}

=== FILE: engine.dfy ===
/** The trade engine (`TradeSystem`) with its queues and timers removed: the
    ingestion buffer, the aggregate store, the summary size, and the last
    summary the publisher received. One call of `processPendingTransactions`
    is a pure step from one engine state to the next. */
module Engine {
  import opened Options
  import opened Ledger
  import Buffer
  import opened Ranking
  import opened Summaries

  /** The state of a `TradeSystem` instance. */
  datatype TradeSystem = TradeSystem(
    pending: seq<Event>,
    store: Store,
    summaryItemCount: int,
    lastSent: Option<Summary>)

  /** Delays before the next poll, in milliseconds. */
  const ShortPollMs: int := 100
  const LongPollMs: int := 500

  /** The summary size a new engine starts with. */
  const DefaultSummaryItemCount: int := 5

  /** A newly constructed engine. */
  const Initial: TradeSystem := TradeSystem([], Ledger.Empty, DefaultSummaryItemCount, None)

  /** The engine invariant: the counter never goes below zero, and the summary
      last sent to the publisher carries the store's current counters. */
  predicate Valid(e: TradeSystem)
  {
    && e.store.transactionCount >= 0
    && (e.lastSent.Some? ==>
          && e.lastSent.value.transactionCount == e.store.transactionCount
          && e.lastSent.value.companyCount == |e.store.trades|)
  }

  /** `execute_trade`: the event joins the end of the buffer and nothing else
      changes. */
  function ExecuteTrade(e: TradeSystem, id: string, value: int): (r: TradeSystem)
    ensures r.pending == e.pending + [Event(id, value)]
    ensures r.(pending := e.pending) == e
    ensures Valid(e) ==> Valid(r)
  {
    e.(pending := Buffer.Append(e.pending, id, value))
  }

  /** `updateSummaryItemCount`: only the summary size changes. */
  function UpdateSummaryItemCount(e: TradeSystem, count: int): (r: TradeSystem)
    ensures r.summaryItemCount == count
    ensures r.(summaryItemCount := e.summaryItemCount) == e
    ensures Valid(e) ==> Valid(r)
  {
    e.(summaryItemCount := count)
  }

  /** `print_top_stocks`: a ranking of the top `n` companies together with the
      current counters; the engine is not changed. */
  ghost function PrintTopStocks(e: TradeSystem, n: int): (r: Summary)
    requires n >= 0
    ensures IsRankedTop(e.store.trades, n, r.trades)
    ensures r.transactionCount == e.store.transactionCount
    ensures r.companyCount == |e.store.trades|
  {
    Summarize(e.store, n)
  }

  /** What one drain cycle produces: the next state, the summary sent to the
      subject (if any), the summary that got through `removeDuplicates` (if
      any), and the delay before the next cycle. */
  datatype Cycle = Cycle(next: TradeSystem, sent: Option<Summary>, published: Option<Summary>, nextPollMs: int)

  /** One cycle of `processPendingTransactions`: drain the buffer; if the batch
      is non-empty fold it and send a summary of `summaryItemCount` entries;
      then choose the short delay after work and the long one after none. */
  ghost function ProcessPendingTransactions(e: TradeSystem): (r: Cycle)
    requires e.pending != [] ==> e.summaryItemCount >= 0
    ensures r.next.pending == []
    ensures r.next.summaryItemCount == e.summaryItemCount
    ensures e.pending == [] ==>
      && r.next == e
      && r.sent == None && r.published == None
      && r.nextPollMs == LongPollMs
    ensures e.pending != [] ==>
      && r.next.store == Fold(e.store, e.pending)
      && r.sent.Some?
      && IsRankedTop(r.next.store.trades, e.summaryItemCount, r.sent.value.trades)
      && r.sent.value.transactionCount == e.store.transactionCount + |e.pending|
      && r.sent.value.companyCount == |r.next.store.trades|
      && r.next.lastSent == r.sent
      && r.nextPollMs == ShortPollMs
    ensures Valid(e) ==> Valid(r.next)
    ensures Valid(e) && e.pending != [] ==> r.published == r.sent
  {
    var d := Buffer.Drain(e.pending);
    if d.batch == [] then
      Cycle(e.(pending := d.rest), None, None, LongPollMs)
    else
      var store := Fold(e.store, d.batch);
      var summary := Summarize(store, e.summaryItemCount);
      Cycle(TradeSystem(d.rest, store, e.summaryItemCount, Some(summary)),
            Some(summary), Filter(e.lastSent, summary), ShortPollMs)
  }

  /** The engine's public operations and its timer firing. Resizing carries
      only non-negative sizes: a size that is still negative when a non-empty
      batch is drained traps in `prefix`, and traces keep clear of that trap
      by never setting one. */
  datatype Command = Trade(id: string, value: int) | Resize(count: nat) | Poll

  /** The event a command submits, if it is a trade. */
  function EventOf(c: Command): seq<Event>
  {
    if c.Trade? then [Event(c.id, c.value)] else []
  }

  /** The events the trades of a command sequence submit, in order. */
  function Submitted(cmds: seq<Command>): seq<Event>
  {
    if cmds == [] then [] else Submitted(cmds[..|cmds| - 1]) + EventOf(cmds[|cmds| - 1])
  }

  /** One command: the next state and what it publishes. */
  datatype Outcome = Outcome(state: TradeSystem, published: seq<Summary>)

  ghost function Exec(e: TradeSystem, c: Command): (o: Outcome)
    requires e.summaryItemCount >= 0
    ensures o.state.summaryItemCount >= 0
  {
    match c
    case Trade(id, value) => Outcome(ExecuteTrade(e, id, value), [])
    case Resize(count) => Outcome(UpdateSummaryItemCount(e, count), [])
    case Poll =>
      var r := ProcessPendingTransactions(e);
      Outcome(r.next, if r.published.Some? then [r.published.value] else [])
  }

  /** The state after running commands, and every summary published on the way. */
  ghost function Run(e: TradeSystem, cmds: seq<Command>): (t: Outcome)
    requires e.summaryItemCount >= 0
    ensures t.state.summaryItemCount >= 0
  {
    if cmds == [] then Outcome(e, [])
    else
      var t := Run(e, cmds[..|cmds| - 1]);
      var o := Exec(t.state, cmds[|cmds| - 1]);
      Outcome(o.state, t.published + o.published)
  }

  /** Events folded or still pending, and their values. */
  function Accounted(e: TradeSystem): int
  {
    e.store.transactionCount + |e.pending|
  }

  ghost function AccountedSum(e: TradeSystem): int
  {
    MapSum(e.store.trades) + SumAll(e.pending)
  }

  /** One command accounts for exactly the event it submits, keeps the
      invariant, never lowers the count, and publishes only a summary whose
      count is above the count before it and equal to the count after it. */
  lemma ExecConserves(e: TradeSystem, c: Command)
    requires e.summaryItemCount >= 0
    ensures Accounted(Exec(e, c).state) == Accounted(e) + |EventOf(c)|
    ensures AccountedSum(Exec(e, c).state) == AccountedSum(e) + SumAll(EventOf(c))
    ensures Valid(e) ==> Valid(Exec(e, c).state)
    ensures e.store.transactionCount <= Exec(e, c).state.store.transactionCount
    ensures Valid(e) ==> forall i :: 0 <= i < |Exec(e, c).published| ==>
      e.store.transactionCount < Exec(e, c).published[i].transactionCount
                               == Exec(e, c).state.store.transactionCount
  {
    match c
    case Trade(id, value) =>
      SumAllAppend(e.pending, Event(id, value));
    case Resize(count) =>
    case Poll =>
      var r := ProcessPendingTransactions(e);
      if e.pending != [] {
        DrainConserves(e, r.next);
      }
  }

  /** Moving the whole buffer into the store loses and adds no event. */
  lemma DrainConserves(e: TradeSystem, next: TradeSystem)
    requires next.pending == [] && next.store == Fold(e.store, e.pending)
    ensures Accounted(next) == Accounted(e)
    ensures AccountedSum(next) == AccountedSum(e)
  {
    FoldConservesSum(e.store, e.pending);
  }

  /** Conservation across any run: events folded plus events pending grow by
      the number of trades submitted, and so does the sum of totals plus the
      pending values by the sum of submitted values. The engine invariant holds
      throughout. */
  lemma {:induction false} RunConserves(e: TradeSystem, cmds: seq<Command>)
    requires e.summaryItemCount >= 0
    ensures Accounted(Run(e, cmds).state) == Accounted(e) + |Submitted(cmds)|
    ensures AccountedSum(Run(e, cmds).state) == AccountedSum(e) + SumAll(Submitted(cmds))
    ensures Valid(e) ==> Valid(Run(e, cmds).state)
    ensures e.store.transactionCount <= Run(e, cmds).state.store.transactionCount
  {
    if cmds != [] {
      var init := cmds[..|cmds| - 1];
      var c := cmds[|cmds| - 1];
      RunConserves(e, init);
      ExecConserves(Run(e, init).state, c);
      SumAllConcat(Submitted(init), EventOf(c));
    }
  }

  /** Starting from a new engine and ending with a poll, every submitted trade
      has been folded: the count is the number of trades and the sum of all
      totals is the sum of all trade values. */
  lemma ConservationFromInitial(cmds: seq<Command>)
    requires cmds != [] && cmds[|cmds| - 1] == Poll
    ensures Run(Initial, cmds).state.pending == []
    ensures Run(Initial, cmds).state.store.transactionCount == |Submitted(cmds)|
    ensures MapSum(Run(Initial, cmds).state.store.trades) == SumAll(Submitted(cmds))
  {
    RunConserves(Initial, cmds);
    assert Initial.store.trades == map[];
  }

  /** Transaction counts strictly increase along `ps` and lie in `(lo, hi]`. */
  predicate CountsIncrease(ps: seq<Summary>, lo: int, hi: int)
  {
    && (forall i :: 0 <= i < |ps| - 1 ==> ps[i].transactionCount < ps[i + 1].transactionCount)
    && (forall i :: 0 <= i < |ps| ==> lo < ps[i].transactionCount <= hi)
  }

  /** Published summaries arrive with strictly increasing transaction counts,
      all above the count the run started from and none above the final one. */
  lemma {:induction false} PublishedCountsIncrease(e: TradeSystem, cmds: seq<Command>)
    requires e.summaryItemCount >= 0 && Valid(e)
    ensures CountsIncrease(Run(e, cmds).published, e.store.transactionCount,
                           Run(e, cmds).state.store.transactionCount)
  {
    if cmds != [] {
      var init := cmds[..|cmds| - 1];
      var t := Run(e, init);
      PublishedCountsIncrease(e, init);
      RunConserves(e, init);
      ExecConserves(t.state, cmds[|cmds| - 1]);
      var o := Exec(t.state, cmds[|cmds| - 1]);
      assert |o.published| <= 1;
      if |o.published| == 1 {
        CountsIncreaseExtend(t.published, e.store.transactionCount, t.state.store.transactionCount,
                             o.published[0], o.state.store.transactionCount);
        assert o.published == [o.published[0]];
      } else {
        assert t.published + o.published == t.published;
      }
    }
  }

  lemma CountsIncreaseExtend(ps: seq<Summary>, lo: int, hi: int, x: Summary, hi': int)
    requires CountsIncrease(ps, lo, hi)
    requires lo <= hi < x.transactionCount <= hi'
    ensures CountsIncrease(ps + [x], lo, hi')
  {
  }
}

=== FILE: ledger.dfy ===
/** The aggregate store of the trade engine: per-company running totals and the
    number of trade events folded into them. */
module Ledger {

  /** One trade event: a company identifier and a signed value. */
  datatype Event = Event(id: string, value: int)

  /** The store guarded by the trades queue: `trades` and `transactionCount`. */
  datatype Store = Store(trades: map<string, int>, transactionCount: int)

  /** A freshly constructed engine holds no totals and has folded nothing. */
  const Empty: Store := Store(map[], 0)

  /** `trades[id, default: 0]`. */
  function Total(m: map<string, int>, id: string): int
  {
    if id in m then m[id] else 0
  }

  /** The set of company identifiers mentioned by a batch. */
  function Ids(batch: seq<Event>): set<string>
  {
    set e | e in batch :: e.id
  }

  /** The sum of the values a batch carries for one company. */
  function SumFor(batch: seq<Event>, id: string): int
  {
    if batch == [] then 0
    else (if batch[0].id == id then batch[0].value else 0) + SumFor(batch[1..], id)
  }

  /** The sum of every value a batch carries. */
  function SumAll(batch: seq<Event>): int
  {
    if batch == [] then 0 else batch[0].value + SumAll(batch[1..])
  }

  /** Folding one event (`processQueuedTrade`): the company's total grows by the
      event's value (starting from 0 for a new company), the transaction count
      grows by exactly one, and every other company keeps its total. */
  function Apply(s: Store, e: Event): (r: Store)
    ensures r.transactionCount == s.transactionCount + 1
    ensures r.trades.Keys == s.trades.Keys + {e.id}
    ensures r.trades[e.id] == Total(s.trades, e.id) + e.value
    ensures forall k :: k != e.id ==> Total(r.trades, k) == Total(s.trades, k)
  {
    Store(s.trades[e.id := Total(s.trades, e.id) + e.value], s.transactionCount + 1)
  }

  /** Folding a batch in order (the loop of `processPending`): the count grows by
      the batch length, the companies are the old ones plus those of the batch,
      and each company's total grows by the sum of its values in the batch. */
  function Fold(s: Store, batch: seq<Event>): (r: Store)
    ensures r.transactionCount == s.transactionCount + |batch|
    ensures r.trades.Keys == s.trades.Keys + Ids(batch)
    ensures forall k :: Total(r.trades, k) == Total(s.trades, k) + SumFor(batch, k)
    decreases |batch|
  {
    if batch == [] then s
    else Fold(Apply(s, batch[0]), batch[1..])
  }

  /** The sum of all totals of a map. */
  ghost function MapSum(m: map<string, int>): int
    decreases |m|
  {
    if m == map[] then 0
    else
      var k :| k in m;
      assert |m - {k}| < |m| by { assert (m - {k}).Keys == m.Keys - {k}; }
      m[k] + MapSum(m - {k})
  }

  /** MapSum may peel off any key, not only the one it happens to choose. */
  lemma {:induction false} MapSumRemove(m: map<string, int>, k: string)
    requires k in m
    ensures MapSum(m) == m[k] + MapSum(m - {k})
    decreases |m|
  {
    var j :| j in m && MapSum(m) == m[j] + MapSum(m - {j});
    if j != k {
      assert (m - {j}).Keys == m.Keys - {j};
      assert (m - {k}).Keys == m.Keys - {k};
      MapSumRemove(m - {j}, k);
      MapSumRemove(m - {k}, j);
      assert (m - {j}) - {k} == (m - {k}) - {j};
    }
  }

  /** Replacing one total changes the sum of totals by the difference. */
  lemma MapSumUpdate(m: map<string, int>, k: string, v: int)
    ensures MapSum(m[k := v]) == MapSum(m) - Total(m, k) + v
  {
    MapSumRemove(m[k := v], k);
    if k in m {
      MapSumRemove(m, k);
      assert m[k := v] - {k} == m - {k};
    } else {
      assert m[k := v] - {k} == m;
    }
  }

  /** Conservation: folding a batch raises the sum of all totals by the sum of
      all values in the batch. */
  lemma {:induction false} FoldConservesSum(s: Store, batch: seq<Event>)
    ensures MapSum(Fold(s, batch).trades) == MapSum(s.trades) + SumAll(batch)
    decreases |batch|
  {
    if batch != [] {
      ApplyConservesSum(s, batch[0]);
      FoldConservesSum(Apply(s, batch[0]), batch[1..]);
    }
  }

  /** Folding one event raises the sum of all totals by its value. */
  lemma ApplyConservesSum(s: Store, e: Event)
    ensures MapSum(Apply(s, e).trades) == MapSum(s.trades) + e.value
  {
    MapSumUpdate(s.trades, e.id, Total(s.trades, e.id) + e.value);
  }

  /** Folding two batches one after the other is folding their concatenation. */
  lemma {:induction false} FoldConcat(s: Store, a: seq<Event>, b: seq<Event>)
    ensures Fold(s, a + b) == Fold(Fold(s, a), b)
    decreases |a|
  {
    if a != [] {
      assert (a + b)[1..] == a[1..] + b;
      FoldConcat(Apply(s, a[0]), a[1..], b);
    } else {
      assert a + b == b;
    }
  }

  /** The sum of two batches one after the other. */
  lemma SumAllConcat(a: seq<Event>, b: seq<Event>)
    ensures SumAll(a + b) == SumAll(a) + SumAll(b)
  {
    if a != [] {
      assert (a + b)[1..] == a[1..] + b;
      SumAllConcat(a[1..], b);
    } else {
      assert a + b == b;
    }
  }

  /** The sum of a batch with one more event at the end. */
  lemma SumAllAppend(batch: seq<Event>, x: Event)
    ensures SumAll(batch + [x]) == SumAll(batch) + x.value
  {
    if batch != [] {
      assert (batch + [x])[1..] == batch[1..] + [x];
      SumAllAppend(batch[1..], x);
    }
  }
}

=== FILE: options.dfy ===
/** The optional value used for Swift's `T?` results (a failed integer parse,
    an empty snapshot, a summary that is not published). */
module Options {

  datatype Option<+T> = None | Some(value: T) {

    /** The wrapped value, or `default` when there is none (Swift's `??`). */
    function GetOr(default: T): T
    {
      match this
      case Some(v) => v
      case None => default
    }
  }
}

=== FILE: ranking.dfy ===
/** The ranked view of the store: map entries sorted by total, largest first,
    cut to a prefix of `n` (`trades.sorted(by: { $0.1 > $1.1 }).prefix(n)`).
    Dictionary iteration order is unspecified and the sort promises no tie
    order, so the ranking is specified relationally (`IsRankedTop`) and the
    computation is proved correct for every iteration order. */
module Ranking {

  type Entry = (string, int)

  predicate Descending(s: seq<Entry>)
  {
    forall i, j :: 0 <= i < j < |s| ==> s[i].1 >= s[j].1
  }

  predicate DistinctIds(s: seq<Entry>)
  {
    forall i, j :: 0 <= i < j < |s| ==> s[i].0 != s[j].0
  }

  function IdsOf(s: seq<Entry>): set<string>
  {
    set i | 0 <= i < |s| :: s[i].0
  }

  /** `order` lists every key of `m` exactly once: one possible iteration order. */
  ghost predicate IsEnumeration(order: seq<string>, m: map<string, int>)
  {
    && (forall i, j :: 0 <= i < j < |order| ==> order[i] != order[j])
    && (forall k :: k in order <==> k in m)
  }

  /** `r` is a top-`n` ranking of `m`: min(n, |m|) entries of the store, no
      company twice, largest totals first, and no company left out has a
      larger total than any company let in. */
  ghost predicate IsRankedTop(m: map<string, int>, n: nat, r: seq<Entry>)
  {
    && |r| == (if n < |m| then n else |m|)
    && Descending(r)
    && DistinctIds(r)
    && (forall i :: 0 <= i < |r| ==> r[i].0 in m && m[r[i].0] == r[i].1)
    && (forall k, i :: k in m && k !in IdsOf(r) && 0 <= i < |r| ==> m[k] <= r[i].1)
  }

  /** Some iteration order of a map; which one is deliberately left unspecified. */
  ghost function Enumerate(m: map<string, int>): (order: seq<string>)
    ensures IsEnumeration(order, m)
    decreases |m|
  {
    if m == map[] then []
    else
      var k :| k in m;
      assert (m - {k}).Keys == m.Keys - {k};
      [k] + Enumerate(m - {k})
  }

  /** The entries of `m` in the given iteration order. */
  function EntriesOf(m: map<string, int>, order: seq<string>): (r: seq<Entry>)
    requires forall k :: k in order ==> k in m
    ensures |r| == |order|
    ensures forall i :: 0 <= i < |r| ==> r[i] == (order[i], m[order[i]])
  {
    if order == [] then []
    else [(order[0], m[order[0]])] + EntriesOf(m, order[1..])
  }

  /** Places one entry into a descending sequence. */
  function Insert(x: Entry, s: seq<Entry>): (r: seq<Entry>)
    requires Descending(s)
    ensures Descending(r)
    ensures multiset(r) == multiset(s) + multiset{x}
    ensures |r| == |s| + 1
    ensures r[0] == x || (s != [] && r[0] == s[0])
  {
    if s == [] then [x]
    else if x.1 >= s[0].1 then
      DescendingCons(x, s);
      [x] + s
    else
      var t := Insert(x, s[1..]);
      assert s == [s[0]] + s[1..];
      DescendingCons(s[0], t);
      [s[0]] + t
  }

  /** An entry at least as large as the head of a descending sequence may go in front. */
  lemma DescendingCons(h: Entry, t: seq<Entry>)
    requires Descending(t) && (t != [] ==> h.1 >= t[0].1)
    ensures Descending([h] + t)
  {
    var r := [h] + t;
    forall i, j | 0 <= i < j < |r| ensures r[i].1 >= r[j].1 {
      if i > 0 {
        assert r[i] == t[i - 1] && r[j] == t[j - 1];
      } else {
        assert r[j] == t[j - 1];
      }
    }
  }

  /** Sorting by total, largest first: the result is descending and a
      permutation of the input. */
  function SortDescending(s: seq<Entry>): (r: seq<Entry>)
    ensures Descending(r)
    ensures multiset(r) == multiset(s)
  {
    if s == [] then []
    else
      assert s == [s[0]] + s[1..];
      Insert(s[0], SortDescending(s[1..]))
  }

  /** The ranked prefix computed over a given iteration order of the store. */
  function RankWith(m: map<string, int>, order: seq<string>, n: nat): (r: seq<Entry>)
    requires IsEnumeration(order, m)
    ensures IsRankedTop(m, n, r)
  {
    var sorted := SortDescending(EntriesOf(m, order));
    EnumerationLength(order, m);
    EntriesPermutation(m, order, sorted);
    var r := sorted[..if n < |sorted| then n else |sorted|];
    PrefixIsRankedTop(m, n, sorted, r);
    r
  }

  /** The ranking the engine reports, over the store's own (unspecified)
      iteration order. */
  ghost function Rank(m: map<string, int>, n: nat): (r: seq<Entry>)
    ensures IsRankedTop(m, n, r)
  {
    RankWith(m, Enumerate(m), n)
  }

  // ---- helper lemmas ----

  /** A duplicate-free listing of a map's keys has the map's size. */
  lemma {:induction false} EnumerationLength(order: seq<string>, m: map<string, int>)
    requires IsEnumeration(order, m)
    ensures |order| == |m|
    decreases |order|
  {
    if order == [] {
      assert m.Keys == {};
    } else {
      var k := order[0];
      var m' := m - {k};
      assert m'.Keys == m.Keys - {k};
      forall j | j in order[1..] ensures j in m' {
        var i :| 0 <= i < |order[1..]| && order[1..][i] == j;
        assert order[i + 1] == j;
      }
      forall j | j in m' ensures j in order[1..] {
        assert j in order;
        var i :| 0 <= i < |order| && order[i] == j;
        assert i != 0;
        assert order[1..][i - 1] == j;
      }
      EnumerationLength(order[1..], m');
    }
  }

  /** Every sorted entry is an entry of the store, no company appears twice, and
      every store entry appears. */
  lemma EntriesPermutation(m: map<string, int>, order: seq<string>, sorted: seq<Entry>)
    requires IsEnumeration(order, m)
    requires multiset(sorted) == multiset(EntriesOf(m, order))
    ensures forall i :: 0 <= i < |sorted| ==> sorted[i].0 in m && m[sorted[i].0] == sorted[i].1
    ensures DistinctIds(sorted)
    ensures forall k :: k in m ==> (k, m[k]) in sorted
  {
    var es := EntriesOf(m, order);
    forall i | 0 <= i < |sorted| ensures sorted[i].0 in m && m[sorted[i].0] == sorted[i].1 {
      assert sorted[i] in multiset(sorted);
      assert sorted[i] in es;
    }
    forall k | k in m ensures (k, m[k]) in sorted {
      var i :| 0 <= i < |order| && order[i] == k;
      assert es[i] == (k, m[k]);
      assert (k, m[k]) in multiset(es);
    }
    forall i, j | 0 <= i < j < |sorted| ensures sorted[i].0 != sorted[j].0 {
      if sorted[i].0 == sorted[j].0 {
        assert sorted[i] == sorted[j];
        TwiceInMultiset(sorted, i, j);
        var x := sorted[i];
        DistinctEntriesOnce(m, order, x);
        assert false;
      }
    }
  }

  lemma TwiceInMultiset(s: seq<Entry>, i: int, j: int)
    requires 0 <= i < j < |s| && s[i] == s[j]
    ensures multiset(s)[s[i]] >= 2
  {
    assert s == s[..i] + [s[i]] + s[i + 1..j] + [s[j]] + s[j + 1..];
  }

  lemma {:induction false} DistinctEntriesOnce(m: map<string, int>, order: seq<string>, x: Entry)
    requires forall k :: k in order ==> k in m
    requires forall i, j :: 0 <= i < j < |order| ==> order[i] != order[j]
    ensures multiset(EntriesOf(m, order))[x] <= 1
    decreases |order|
  {
    if order != [] {
      var es := EntriesOf(m, order);
      assert es == [es[0]] + EntriesOf(m, order[1..]);
      DistinctEntriesOnce(m, order[1..], x);
      if x == es[0] {
        assert x.0 !in order[1..];
        assert x !in EntriesOf(m, order[1..]);
      }
    }
  }

  /** A prefix of a descending listing of all store entries is a ranking. */
  lemma PrefixIsRankedTop(m: map<string, int>, n: nat, sorted: seq<Entry>, r: seq<Entry>)
    requires |sorted| == |m|
    requires Descending(sorted) && DistinctIds(sorted)
    requires forall i :: 0 <= i < |sorted| ==> sorted[i].0 in m && m[sorted[i].0] == sorted[i].1
    requires forall k :: k in m ==> (k, m[k]) in sorted
    requires r == sorted[..if n < |sorted| then n else |sorted|]
    ensures IsRankedTop(m, n, r)
  {
    assert forall i :: 0 <= i < |r| ==> r[i] == sorted[i];
    assert Descending(r);
    assert DistinctIds(r);
    assert forall i :: 0 <= i < |r| ==> r[i].0 in IdsOf(r);
    forall k, i | k in m && k !in IdsOf(r) && 0 <= i < |r| ensures m[k] <= r[i].1 {
      var j :| 0 <= j < |sorted| && sorted[j] == (k, m[k]);
      assert j >= |r|;
    }
  }
}

=== FILE: scenarios.dfy ===
/** Concrete scenarios of the engine, derived from the general properties. */
module Scenarios {
  import opened Options
  import opened Ranking
  import opened Text
  import opened Snapshot

  /** Totals with a tie at the top. */
  function TiedTotals(): (m: map<string, int>)
    ensures m.Keys == {"A", "B", "C", "D"}
  {
    map["A" := 50, "B" := -10, "C" := 50, "D" := 0]
  }

  /** The top two of {A:50, B:-10, C:50, D:0} are A and C, in either order. */
  lemma TopTwoOfTiedTotals(r: seq<Entry>)
    requires IsRankedTop(TiedTotals(), 2, r)
    ensures IdsOf(r) == {"A", "C"}
  {
    var m := TiedTotals();
    assert |m.Keys| == 4;
    assert |r| == 2;
    assert r[0].0 != r[1].0;
    assert IdsOf(r) == {r[0].0, r[1].0};
  }

  /** The store exported in the round-trip scenario. */
  function ExportedTotals(): (m: map<string, int>)
    ensures m.Keys == {"ABC", "XYZ"}
    ensures forall k :: k in m ==> RepresentableId(k)
  {
    map["ABC" := 120, "XYZ" := -40]
  }

  /** The top two of {ABC:120, XYZ:-40} are ABC then XYZ. */
  lemma TopTwoOfTwo(r: seq<Entry>)
    requires IsRankedTop(ExportedTotals(), 2, r)
    ensures r == [("ABC", 120), ("XYZ", -40)]
  {
    var m := ExportedTotals();
    assert |m.Keys| == 2;
    assert r[0].0 != r[1].0;
  }

  /** Exporting {ABC:120, XYZ:-40} and importing it again ranks ABC before XYZ. */
  lemma ExportImportRanks(order: seq<string>, r: seq<Entry>)
    requires IsEnumeration(order, ExportedTotals())
    ensures var text := SerializeWith(ExportedTotals(), order);
      && text.Some?
      && (IsRankedTop(ParseTrades(text.value), 2, r) ==> r == [("ABC", 120), ("XYZ", -40)])
  {
    var text := SerializeWith(ExportedTotals(), order);
    assert "ABC" in ExportedTotals();
    assert text.Some?;
    if IsRankedTop(ParseTrades(text.value), 2, r) {
      TopTwoOfTwo(r);
    }
  }

  /** Two rows for the same company: the second replaces the first. */
  lemma RepeatedIdOverwrites(id: string, first: string, second: string)
    requires RepresentableId(id)
    requires |first| > 0 && '\t' !in first && '\n' !in first
    requires |second| > 0 && '\t' !in second && '\n' !in second
    ensures ParseTrades(id + "\t" + first + "\n" + id + "\t" + second + "\n")
      == map[id := ParseInt(second).GetOr(0)]
  {
    var row1 := id + "\t" + first;
    var row2 := id + "\t" + second;
    assert id + "\t" + first + "\n" + id + "\t" + second + "\n" == row1 + "\n" + row2 + "\n";
    ParseTwoRows(row1, row2);
    var v1 := ParseInt(first).GetOr(0);
    var v2 := ParseInt(second).GetOr(0);
    DecodeRowFields(id, first, []);
    DecodeRowFields(id, second, []);
    assert row1 + [] == row1 && row2 + [] == row2;
    assert LoadRow(map[], row1) == map[id := v1];
    assert map[id := v1][id := v2] == map[id := v2];
  }

  /** Text of two rows loads the first row, then the second. */
  lemma ParseTwoRows(row1: string, row2: string)
    requires |row1| > 0 && '\n' !in row1
    requires |row2| > 0 && '\n' !in row2
    ensures ParseTrades(row1 + "\n" + row2 + "\n") == LoadRow(LoadRow(map[], row1), row2)
  {
    TwoRowsSplit(row1, row2);
    LoadTwoRows(map[], row1, row2);
  }

  /** Loading two rows is loading the first, then the second. */
  lemma LoadTwoRows(m: map<string, int>, row1: string, row2: string)
    ensures LoadRows(m, [row1, row2]) == LoadRow(LoadRow(m, row1), row2)
  {
    assert [row1, row2][1..] == [row2] && [row2][1..] == [];
    assert LoadRows(m, [row1, row2]) == LoadRows(LoadRow(m, row1), [row2]);
    assert LoadRows(LoadRow(m, row1), [row2]) == LoadRows(LoadRow(LoadRow(m, row1), row2), []);
  }

  lemma TwoRowsSplit(row1: string, row2: string)
    requires |row1| > 0 && '\n' !in row1
    requires |row2| > 0 && '\n' !in row2
    ensures Split(row1 + "\n" + row2 + "\n", '\n') == [row1, row2]
  {
    SplitCons(row2, [], '\n');
    assert row2 + "\n" == row2 + ['\n'] + [];
    SplitCons(row1, row2 + "\n", '\n');
    assert row1 + "\n" + row2 + "\n" == row1 + ['\n'] + (row2 + "\n");
    assert Split([], '\n') == [];
  }

  /** `Int(_:)` on signed and malformed numerals: a sign is allowed only in
      front, leading zeros are allowed, and a lone sign is not a number. */
  lemma SignedNumerals()
    ensures ParseInt("+5") == Some(5)
    ensures ParseInt("-007") == Some(-7)
    ensures ParseInt("-") == None
    ensures ParseInt("5-") == None
    ensures ParseInt("+-1") == None
  {
    assert "-007"[1..] == "007";
    assert DigitsValue("007") == 7 by {
      assert "007"[..2] == "00" && "00"[..1] == "0" && "0"[..0] == "";
    }
    assert !IsDigit("5-"[1]);
    assert !IsDigit("+-1"[1]);
  }
}

=== FILE: snapshot.dfy ===
/** The tab-delimited snapshot codec: `serializeTabDelimited` writes one
    `id<TAB>total<NEWLINE>` line per company, and `init(tabDelimitedString:)`
    builds a fresh engine whose totals are read back from such text. */
module Snapshot {
  import opened Options
  import opened Ledger
  import opened Ranking
  import opened Text
  import opened Engine

  /** One record of the snapshot. */
  function Line(id: string, total: int): string
  {
    id + "\t" + IntToString(total) + "\n"
  }

  /** The records of `m`, in the given iteration order. */
  function LinesOf(m: map<string, int>, order: seq<string>): string
    requires forall k :: k in order ==> k in m
  {
    if order == [] then [] else Line(order[0], m[order[0]]) + LinesOf(m, order[1..])
  }

  /** Company identifiers the text format can carry: non-empty, with neither a
      tab nor a newline inside (the format has no escaping). */
  predicate RepresentableId(id: string)
  {
    |id| > 0 && '\t' !in id && '\n' !in id
  }

  /** `serializeTabDelimited` over a given iteration order: nil exactly when
      the store is empty, and otherwise text that reads back as the very same
      totals whenever every identifier is representable. */
  function SerializeWith(m: map<string, int>, order: seq<string>): (r: Option<string>)
    requires IsEnumeration(order, m)
    ensures r.None? <==> |m| == 0
    ensures r.Some? && (forall k :: k in m ==> RepresentableId(k)) ==> ParseTrades(r.value) == m
  {
    EnumerationLength(order, m);
    if |m| == 0 then None
    else
      var text := LinesOf(m, order);
      assert (forall k :: k in m ==> RepresentableId(k)) ==> ParseTrades(text) == m by {
        if forall k :: k in m ==> RepresentableId(k) {
          RoundTrip(m, order);
        }
      }
      Some(text)
  }

  /** `serializeTabDelimited` over the store's own iteration order. */
  ghost function SerializeTabDelimited(e: TradeSystem): (r: Option<string>)
    ensures r.None? <==> |e.store.trades| == 0
    ensures r.Some? && (forall k :: k in e.store.trades ==> RepresentableId(k)) ==>
      ParseTrades(r.value) == e.store.trades
  {
    SerializeWith(e.store.trades, Enumerate(e.store.trades))
  }

  /** A row's record: rows with fewer than two tab-separated fields give none,
      fields past the second are ignored, and a second field that is not an
      integer gives 0. */
  function DecodeRow(row: string): (r: Option<Entry>)
    ensures r.Some? ==> |r.value.0| > 0 && '\t' !in r.value.0
  {
    var fields := Split(row, '\t');
    if |fields| >= 2 then Some((fields[0], ParseInt(fields[1]).GetOr(0))) else None
  }

  /** Stores one row's record, overwriting any earlier total of that company. */
  function LoadRow(m: map<string, int>, row: string): map<string, int>
  {
    match DecodeRow(row)
    case None => m
    case Some(entry) => m[entry.0 := entry.1]
  }

  /** Stores every row's record, first row first. */
  function LoadRows(m: map<string, int>, rows: seq<string>): (r: map<string, int>)
    ensures m.Keys <= r.Keys
    decreases |rows|
  {
    if rows == [] then m else LoadRows(LoadRow(m, rows[0]), rows[1..])
  }

  /** The totals read from snapshot text: newline-separated rows, empty rows
      dropped. */
  function ParseTrades(text: string): map<string, int>
  {
    if text == [] then map[] else LoadRows(map[], Split(text, '\n'))
  }

  /** `init(tabDelimitedString:)`: a new engine whose totals come from the text
      and whose transaction count stays 0. */
  function FromTabDelimited(text: string): (r: TradeSystem)
    ensures r.pending == [] && r.lastSent == None
    ensures r.store.transactionCount == 0
    ensures r.summaryItemCount == DefaultSummaryItemCount
    ensures text == [] ==> r.store.trades == map[]
    ensures Valid(r)
  {
    Initial.(store := Store(ParseTrades(text), 0))
  }

  // ---- row decoding ----

  /** A row with fewer than two fields is skipped: one tab-free field, or
      none, between any runs of tabs (`"id"`, `"id\t"`, `"\tid"`, `"\t\t"`). */
  lemma RowWithOneFieldSkipped(before: string, field: string, after: string)
    requires forall i :: 0 <= i < |before| ==> before[i] == '\t'
    requires '\t' !in field
    requires forall i :: 0 <= i < |after| ==> after[i] == '\t'
    ensures DecodeRow(before + field + after) == None
  {
    OneFieldBetweenSeparators(before, field, after, '\t');
  }

  /** A row `id<TAB>value` optionally followed by more tab-separated fields
      records `id` with the integer value, or 0 when `value` is not an
      integer. */
  lemma DecodeRowFields(id: string, value: string, more: string)
    requires |id| > 0 && '\t' !in id
    requires |value| > 0 && '\t' !in value
    requires more == [] || more[0] == '\t'
    ensures DecodeRow(id + "\t" + value + more) == Some((id, ParseInt(value).GetOr(0)))
  {
    var row := id + "\t" + value + more;
    assert row == id + ['\t'] + (value + more);
    SplitCons(id, value + more, '\t');
    if more == [] {
      assert value + more == value;
      SplitSingle(value, '\t');
    } else {
      assert value + more == value + ['\t'] + more[1..];
      SplitCons(value, more[1..], '\t');
    }
  }

  /** A record as written by the serializer decodes to exactly that record. */
  lemma DecodeWrittenRow(id: string, total: int)
    requires RepresentableId(id)
    ensures DecodeRow(id + "\t" + IntToString(total)) == Some((id, total))
  {
    var digits := IntToString(total);
    assert '\t' !in digits;
    DecodeRowFields(id, digits, []);
    assert id + "\t" + digits + [] == id + "\t" + digits;
    ParseIntToString(total);
  }

  /** Loading a written record stores exactly that total. */
  lemma LoadWrittenRow(acc: map<string, int>, id: string, total: int)
    requires RepresentableId(id)
    ensures LoadRow(acc, id + "\t" + IntToString(total)) == acc[id := total]
  {
    DecodeWrittenRow(id, total);
  }

  // ---- duplicate and missing identifiers ----

  /** The row records a total for company `k`. */
  predicate RowNames(row: string, k: string)
  {
    DecodeRow(row).Some? && DecodeRow(row).value.0 == k
  }

  /** A repeated identifier keeps the value of its last row. */
  lemma {:induction false} LastRowWins(m: map<string, int>, rows: seq<string>, i: int)
    requires 0 <= i < |rows| && DecodeRow(rows[i]).Some?
    requires forall j :: i < j < |rows| ==> !RowNames(rows[j], DecodeRow(rows[i]).value.0)
    ensures DecodeRow(rows[i]).value.0 in LoadRows(m, rows)
    ensures LoadRows(m, rows)[DecodeRow(rows[i]).value.0] == DecodeRow(rows[i]).value.1
    decreases |rows|
  {
    if i == 0 {
      var entry := DecodeRow(rows[0]).value;
      var m' := LoadRow(m, rows[0]);
      assert entry.0 in m' && m'[entry.0] == entry.1;
      UntouchedByRows(m', rows[1..], entry.0);
    } else {
      LastRowWins(LoadRow(m, rows[0]), rows[1..], i - 1);
    }
  }

  /** A company no row mentions keeps its starting total, or stays absent. */
  lemma {:induction false} UntouchedByRows(m: map<string, int>, rows: seq<string>, k: string)
    requires forall j :: 0 <= j < |rows| ==> !RowNames(rows[j], k)
    ensures k in LoadRows(m, rows) <==> k in m
    ensures k in m ==> LoadRows(m, rows)[k] == m[k]
    decreases |rows|
  {
    if rows != [] {
      assert !RowNames(rows[0], k);
      UntouchedByRows(LoadRow(m, rows[0]), rows[1..], k);
    }
  }

  /** Only companies some row mentions appear in parsed text. */
  lemma ParsedIdsComeFromRows(text: string, k: string)
    requires k in ParseTrades(text)
    ensures exists j :: 0 <= j < |Split(text, '\n')| && RowNames(Split(text, '\n')[j], k)
  {
    var rows := Split(text, '\n');
    if forall j :: 0 <= j < |rows| ==> !RowNames(rows[j], k) {
      UntouchedByRows(map[], rows, k);
    }
  }

  // ---- round trip ----

  /** The rows the serializer writes, without their newlines. */
  function RowsOf(m: map<string, int>, order: seq<string>): (rows: seq<string>)
    requires forall k :: k in order ==> k in m
    ensures |rows| == |order|
  {
    if order == [] then [] else [order[0] + "\t" + IntToString(m[order[0]])] + RowsOf(m, order[1..])
  }

  /** Splitting the serialized text at newlines gives back its rows. */
  lemma {:induction false} SplitLines(m: map<string, int>, order: seq<string>)
    requires forall k :: k in order ==> k in m && RepresentableId(k)
    ensures Split(LinesOf(m, order), '\n') == RowsOf(m, order)
  {
    if order != [] {
      var k := order[0];
      var row := k + "\t" + IntToString(m[k]);
      assert '\n' !in IntToString(m[k]);
      assert '\n' !in row;
      assert LinesOf(m, order) == row + ['\n'] + LinesOf(m, order[1..]);
      SplitCons(row, LinesOf(m, order[1..]), '\n');
      SplitLines(m, order[1..]);
    }
  }

  /** The entries of `m` at the listed keys. */
  function Listed(m: map<string, int>, order: seq<string>): (r: map<string, int>)
    requires forall k :: k in order ==> k in m
    ensures forall k :: k in r <==> k in order
    ensures forall k :: k in r ==> r[k] == m[k]
  {
    if order == [] then map[] else Listed(m, order[1..])[order[0] := m[order[0]]]
  }

  /** Loading the written rows on top of `acc` adds exactly the listed entries. */
  lemma {:induction false} LoadWrittenRows(acc: map<string, int>, m: map<string, int>, order: seq<string>)
    requires forall k :: k in order ==> k in m && RepresentableId(k)
    ensures LoadRows(acc, RowsOf(m, order)) == acc + Listed(m, order)
    decreases |order|
  {
    if order != [] {
      var k := order[0];
      var rows := RowsOf(m, order);
      assert rows == [k + "\t" + IntToString(m[k])] + RowsOf(m, order[1..]);
      LoadWrittenRow(acc, k, m[k]);
      assert LoadRows(acc, rows) == LoadRows(acc[k := m[k]], RowsOf(m, order[1..]));
      LoadWrittenRows(acc[k := m[k]], m, order[1..]);
      var rest := Listed(m, order[1..]);
      assert acc[k := m[k]] + rest == acc + rest[k := m[k]] by {
        MapUpdateUnion(acc, rest, k, m[k]);
      }
      assert rest[k := m[k]] == Listed(m, order);
    }
  }

  lemma MapUpdateUnion(acc: map<string, int>, rest: map<string, int>, k: string, v: int)
    requires k in rest ==> rest[k] == v
    ensures acc[k := v] + rest == acc + rest[k := v]
  {
  }

  /** Reading back the serialized text reproduces the store. */
  lemma RoundTrip(m: map<string, int>, order: seq<string>)
    requires IsEnumeration(order, m) && |m| > 0
    requires forall k :: k in m ==> RepresentableId(k)
    ensures ParseTrades(LinesOf(m, order)) == m
  {
    EnumerationLength(order, m);
    var text := LinesOf(m, order);
    assert text == Line(order[0], m[order[0]]) + LinesOf(m, order[1..]);
    assert text != [];
    SplitLines(m, order);
    LoadWrittenRows(map[], m, order);
    assert ParseTrades(text) == map[] + Listed(m, order);
    ListedEnumeration(m, order);
  }

  /** Listing every key of a map reproduces the map. */
  lemma ListedEnumeration(m: map<string, int>, order: seq<string>)
    requires IsEnumeration(order, m)
    ensures map[] + Listed(m, order) == m
  {
    var listed := Listed(m, order);
    assert forall k :: k in listed <==> k in m;
    assert listed == m;
    assert map[] + listed == listed;
  }
}

=== FILE: summary.dfy ===
/** `TradeSummary` and its publication filter: `createSummaryAndPublish` /
    `print_top_stocks` build a summary from the store, and the publisher's
    `removeDuplicates` drops a summary equal to the one before it, under the
    custom `==` that compares only the two counters. */
module Summaries {
  import opened Options
  import opened Ledger
  import opened Ranking

  datatype Summary = Summary(trades: seq<Entry>, transactionCount: int, companyCount: int)

  /** `TradeSummary.==`: the ranked list takes no part in the comparison. */
  predicate Same(a: Summary, b: Summary)
  {
    a.companyCount == b.companyCount && a.transactionCount == b.transactionCount
  }

  /** Equality ignores the ranked list: two summaries are equal exactly when
      they would be identical with their lists blanked, and replacing a list
      never changes the answer. */
  lemma SameIffCountersAgree(a: Summary, b: Summary, trades: seq<Entry>)
    ensures Same(a, b) <==> a.(trades := []) == b.(trades := [])
    ensures Same(a, b) <==> Same(a.(trades := trades), b)
  {
  }

  /** The custom equality is an equivalence relation. */
  lemma SameIsEquivalence(a: Summary, b: Summary, c: Summary)
    ensures Same(a, a)
    ensures Same(a, b) ==> Same(b, a)
    ensures Same(a, b) && Same(b, c) ==> Same(a, c)
  {
  }

  /** The summary of the store with the top `n` companies. The source traps in
      `prefix` for a negative `n`. */
  ghost function Summarize(s: Store, n: int): (r: Summary)
    requires n >= 0
    ensures IsRankedTop(s.trades, n, r.trades)
    ensures r.transactionCount == s.transactionCount
    ensures r.companyCount == |s.trades|
  {
    Summary(Rank(s.trades, n), s.transactionCount, |s.trades|)
  }

  /** One step of `removeDuplicates`: `last` is the element received before. */
  function Filter(last: Option<Summary>, next: Summary): (r: Option<Summary>)
    ensures r.None? <==> (last.Some? && Same(last.value, next))
    ensures r.Some? ==> r.value == next
  {
    if last.Some? && Same(last.value, next) then None else Some(next)
  }

  /** `removeDuplicates` over a whole stream, after having received `last`. */
  function RemoveDuplicates(last: Option<Summary>, xs: seq<Summary>): (r: seq<Summary>)
    ensures |r| <= |xs|
    decreases |xs|
  {
    if xs == [] then []
    else
      Emitted(last, xs[0]) + RemoveDuplicates(Some(xs[0]), xs[1..])
  }

  /** Each element of the output is an element of the input. */
  lemma {:induction false} RemoveDuplicatesSubset(last: Option<Summary>, xs: seq<Summary>)
    ensures forall y :: y in RemoveDuplicates(last, xs) ==> y in xs
    decreases |xs|
  {
    if xs != [] {
      RemoveDuplicatesSubset(Some(xs[0]), xs[1..]);
    }
  }

  /** No two consecutive published summaries are equal, and the first differs
      from the one received before the stream. Comparing with the previous
      received element is the same as comparing with the previous emitted one,
      because the equality is an equivalence. */
  lemma {:induction false} RemoveDuplicatesNoRepeats(last: Option<Summary>, xs: seq<Summary>)
    ensures var ys := RemoveDuplicates(last, xs);
      && (forall i :: 0 <= i < |ys| - 1 ==> !Same(ys[i], ys[i + 1]))
      && (last.Some? && |ys| > 0 ==> !Same(last.value, ys[0]))
    decreases |xs|
  {
    if xs != [] {
      var ys := RemoveDuplicates(last, xs);
      var tail := RemoveDuplicates(Some(xs[0]), xs[1..]);
      RemoveDuplicatesNoRepeats(Some(xs[0]), xs[1..]);
      if Filter(last, xs[0]).None? {
        assert ys == tail;
        if |ys| > 0 {
          // the dropped element equals the one before it, so the next one
          // published differs from both
          assert !Same(xs[0], ys[0]) && Same(last.value, xs[0]);
        }
      } else {
        assert ys == [xs[0]] + tail;
      }
    }
  }

  /** The last element received after `last` and then `xs`. */
  function LastOf(last: Option<Summary>, xs: seq<Summary>): Option<Summary>
  {
    if xs == [] then last else Some(xs[|xs| - 1])
  }

  /** The filter runs in order over a stream: filtering `xs + ys` filters `xs`,
      then filters `ys` against the last element of `xs`. With `Filter`'s
      contract this fixes the output of every stream, order and repeats
      included. */
  lemma {:induction false} RemoveDuplicatesConcat(last: Option<Summary>, xs: seq<Summary>, ys: seq<Summary>)
    ensures RemoveDuplicates(last, xs + ys)
         == RemoveDuplicates(last, xs) + RemoveDuplicates(LastOf(last, xs), ys)
    decreases |xs|
  {
    if xs == [] {
      assert xs + ys == ys;
      assert RemoveDuplicates(last, xs) == [];
    } else {
      var x, rest := xs[0], xs[1..];
      assert xs == [x] + rest;
      RemoveDuplicatesConcat(Some(x), rest, ys);
      RemoveDuplicatesConcatStep(last, x, rest, ys);
    }
  }

  /** The inductive step of `RemoveDuplicatesConcat`: its statement for a
      stream gives it for the stream with one more element in front. */
  lemma RemoveDuplicatesConcatStep(last: Option<Summary>, x: Summary, xs: seq<Summary>, ys: seq<Summary>)
    requires RemoveDuplicates(Some(x), xs + ys)
          == RemoveDuplicates(Some(x), xs) + RemoveDuplicates(LastOf(Some(x), xs), ys)
    ensures RemoveDuplicates(last, [x] + xs + ys)
         == RemoveDuplicates(last, [x] + xs) + RemoveDuplicates(LastOf(last, [x] + xs), ys)
  {
    var head := Emitted(last, x);
    var rest := RemoveDuplicates(Some(x), xs);
    var tail := RemoveDuplicates(LastOf(Some(x), xs), ys);
    LastOfCons(last, x, xs);
    RemoveDuplicatesStep(last, x, xs + ys);
    Associative([x], xs, ys);
    RemoveDuplicatesStep(last, x, xs);
    Associative(head, rest, tail);
  }

  lemma Associative<T>(a: seq<T>, b: seq<T>, c: seq<T>)
    ensures a + b + c == a + (b + c)
  {
  }

  lemma LastOfCons(last: Option<Summary>, x: Summary, xs: seq<Summary>)
    ensures LastOf(last, [x] + xs) == LastOf(Some(x), xs)
  {
    if xs != [] {
      assert ([x] + xs)[|xs|] == xs[|xs| - 1];
    }
  }

  /** One step of the filter, then the rest against the element just seen. */
  lemma RemoveDuplicatesStep(last: Option<Summary>, x: Summary, xs: seq<Summary>)
    ensures RemoveDuplicates(last, [x] + xs) == Emitted(last, x) + RemoveDuplicates(Some(x), xs)
  {
    assert ([x] + xs)[0] == x && ([x] + xs)[1..] == xs;
  }

  /** What one step of the filter emits: the summary, or nothing. */
  function Emitted(last: Option<Summary>, x: Summary): (r: seq<Summary>)
    ensures r == [] || r == [x]
  {
    if Filter(last, x).Some? then [x] else []
  }

  /** The element received just before `xs[i]`. */
  function Prev(last: Option<Summary>, xs: seq<Summary>, i: int): Option<Summary>
    requires 0 <= i < |xs|
  {
    if i == 0 then last else Some(xs[i - 1])
  }

  /** Every summary that differs from the one received before it is published. */
  lemma {:induction false} RemoveDuplicatesKeepsChanges(last: Option<Summary>, xs: seq<Summary>, i: int)
    requires 0 <= i < |xs|
    requires Prev(last, xs, i).None? || !Same(Prev(last, xs, i).value, xs[i])
    ensures xs[i] in RemoveDuplicates(last, xs)
    decreases |xs|
  {
    if i > 0 {
      assert xs[1..][i - 1] == xs[i];
      assert Prev(Some(xs[0]), xs[1..], i - 1) == Prev(last, xs, i);
      RemoveDuplicatesKeepsChanges(Some(xs[0]), xs[1..], i - 1);
    }
  }

  /** A stream whose transaction counts strictly increase passes unfiltered. */
  lemma {:induction false} RemoveDuplicatesKeepsIncreasing(last: Option<Summary>, xs: seq<Summary>)
    requires forall i :: 0 <= i < |xs| - 1 ==> xs[i].transactionCount < xs[i + 1].transactionCount
    requires last.Some? && xs != [] ==> last.value.transactionCount < xs[0].transactionCount
    ensures RemoveDuplicates(last, xs) == xs
    decreases |xs|
  {
    if xs != [] {
      RemoveDuplicatesKeepsIncreasing(Some(xs[0]), xs[1..]);
      assert xs == [xs[0]] + xs[1..];
    }
  }
}

=== FILE: testdata.dfy ===
/** `TestData`: fixed lists of fake companies and trade values, and two cursors
    that step through them and wrap to 0. The lists are random in the source;
    here the random draws are inputs constrained to the ranges the random
    calls produce. */
module TestData {

  const CompanyCount: int := 3000
  const TradeCount: int := 437
  /** The alphabet the names are drawn from: the 26 letters A to Z. */
  const AlphabetSize: int := 26

  /** The `i`-th letter of the alphabet. */
  function Letter(i: int): (c: char)
    requires 0 <= i < AlphabetSize
    ensures 'A' <= c <= 'Z'
  {
    ('A' as int + i) as char
  }

  /** The `TestData` instance: the two fixed lists and a cursor into each. */
  datatype Feed = Feed(
    companies: seq<string>,
    trades: seq<int>,
    companyPointer: int,
    tradePointer: int)

  /** Both cursors point into their (non-empty) lists. */
  predicate Valid(t: Feed)
  {
    && 0 <= t.companyPointer < |t.companies|
    && 0 <= t.tradePointer < |t.trades|
  }

  /** A company name as generated: three or four capital letters. */
  predicate IsCompanyName(name: string)
  {
    && 3 <= |name| <= 4
    && forall i :: 0 <= i < |name| ==> 'A' <= name[i] <= 'Z'
  }

  /** The draws behind one generated name: `Int.random(in: 0...1)` extra
      letters, then one index into the alphabet per letter. */
  datatype NameDraw = NameDraw(extra: int, letters: seq<int>)

  predicate IsNameDraw(d: NameDraw)
  {
    && 0 <= d.extra <= 1
    && |d.letters| == d.extra + 3
    && forall i :: 0 <= i < |d.letters| ==> 0 <= d.letters[i] < AlphabetSize
  }

  /** The name spelled by a draw. */
  function NameOf(d: NameDraw): (name: string)
    requires IsNameDraw(d)
    ensures IsCompanyName(name)
  {
    seq(|d.letters|, j requires 0 <= j < |d.letters| => Letter(d.letters[j]))
  }

  /** `generateCompanies`: 3000 names of three or four letters A to Z, each
      spelled by its draw. */
  method GenerateCompanies(draws: seq<NameDraw>) returns (companies: seq<string>)
    requires |draws| == CompanyCount
    requires forall i :: 0 <= i < |draws| ==> IsNameDraw(draws[i])
    ensures |companies| == CompanyCount
    ensures forall i :: 0 <= i < |companies| ==> IsCompanyName(companies[i])
    ensures forall i :: 0 <= i < |companies| ==> companies[i] == NameOf(draws[i])
  {
    companies := [];
    var n := 0;
    while n < CompanyCount
      invariant 0 <= n <= CompanyCount && |companies| == n
      invariant forall i :: 0 <= i < n ==> companies[i] == NameOf(draws[i])
    {
      var d := draws[n];
      var len := d.extra + 3;
      var name := "";
      var c := 0;
      while c < len
        invariant 0 <= c <= len && name == NameOf(d)[..c]
      {
        name := name + [Letter(d.letters[c])];
        c := c + 1;
      }
      assert name == NameOf(d);
      companies := companies + [name];
      n := n + 1;
    }
  }

  /** `generateTrades`: 437 values, each an `Int.random(in: -500...500)` draw
      shifted by 30, so each lies in [-470, 530]. */
  method GenerateTrades(draws: seq<int>) returns (trades: seq<int>)
    requires |draws| == TradeCount
    requires forall i :: 0 <= i < |draws| ==> -500 <= draws[i] <= 500
    ensures |trades| == TradeCount
    ensures forall i :: 0 <= i < |trades| ==> -470 <= trades[i] <= 530
    ensures forall i :: 0 <= i < |trades| ==> trades[i] == draws[i] + 30
  {
    trades := [];
    var n := 0;
    while n < TradeCount
      invariant 0 <= n <= TradeCount && |trades| == n
      invariant forall i :: 0 <= i < n ==> trades[i] == draws[i] + 30
    {
      trades := trades + [draws[n] + 30];
      n := n + 1;
    }
  }

  /** The shared instance: both cursors start at 0. */
  function Start(companies: seq<string>, trades: seq<int>): (t: Feed)
    requires |companies| > 0 && |trades| > 0
    ensures t.companies == companies && t.trades == trades
    ensures t.companyPointer == 0 && t.tradePointer == 0
    ensures Valid(t)
  {
    Feed(companies, trades, 0, 0)
  }

  /** `incrementCompanyPointer`: one step forward, back to 0 past the end. */
  function IncrementCompanyPointer(t: Feed): (r: Feed)
    ensures r.(companyPointer := t.companyPointer) == t
    ensures 0 <= t.companyPointer < |t.companies| ==>
      r.companyPointer == (t.companyPointer + 1) % |t.companies|
  {
    var p := t.companyPointer + 1;
    t.(companyPointer := if p >= |t.companies| then 0 else p)
  }

  /** `incrementTradePointer`: one step forward, back to 0 past the end. */
  function IncrementTradePointer(t: Feed): (r: Feed)
    ensures r.(tradePointer := t.tradePointer) == t
    ensures 0 <= t.tradePointer < |t.trades| ==>
      r.tradePointer == (t.tradePointer + 1) % |t.trades|
  {
    var p := t.tradePointer + 1;
    t.(tradePointer := if p >= |t.trades| then 0 else p)
  }

  /** A generated trade and the cursors after it. */
  datatype Generated = Generated(trade: (string, int), next: Feed)

  /** `generateTrade`: the pair under the cursors, read before either moves;
      then both cursors advance by one, wrapping, and stay in range. */
  function GenerateTrade(t: Feed): (r: Generated)
    requires Valid(t)
    ensures r.trade == (t.companies[t.companyPointer], t.trades[t.tradePointer])
    ensures Valid(r.next)
    ensures r.next.companies == t.companies && r.next.trades == t.trades
    ensures r.next.companyPointer == (t.companyPointer + 1) % |t.companies|
    ensures r.next.tradePointer == (t.tradePointer + 1) % |t.trades|
  {
    var trade := (t.companies[t.companyPointer], t.trades[t.tradePointer]);
    Generated(trade, IncrementCompanyPointer(IncrementTradePointer(t)))
  }

  /** `k` consecutive calls of `generateTrade`. */
  datatype Batch = Batch(trades: seq<(string, int)>, next: Feed)

  function GenerateMany(t: Feed, k: nat): (r: Batch)
    requires Valid(t)
    ensures Valid(r.next) && |r.trades| == k
    ensures r.next.companies == t.companies && r.next.trades == t.trades
  {
    if k == 0 then Batch([], t)
    else
      var b := GenerateMany(t, k - 1);
      var g := GenerateTrade(b.next);
      Batch(b.trades + [g.trade], g.next)
  }

  /** From fresh cursors, after `k` calls the cursors stand at `k` modulo the
      list lengths. */
  lemma {:induction false} CursorsAfter(companies: seq<string>, trades: seq<int>, k: nat)
    requires |companies| > 0 && |trades| > 0
    ensures GenerateMany(Start(companies, trades), k).next.companyPointer == k % |companies|
    ensures GenerateMany(Start(companies, trades), k).next.tradePointer == k % |trades|
  {
    if k > 0 {
      CursorsAfter(companies, trades, k - 1);
      var b := GenerateMany(Start(companies, trades), k - 1);
      assert GenerateMany(Start(companies, trades), k).next == GenerateTrade(b.next).next;
      ModStep(k - 1, |companies|);
      ModStep(k - 1, |trades|);
    }
  }

  /** From fresh cursors, the `i`-th generated trade pairs company `i` and
      trade value `i`, each index taken modulo its list length. */
  lemma {:induction false} TradesAfter(companies: seq<string>, trades: seq<int>, k: nat)
    requires |companies| > 0 && |trades| > 0
    ensures forall i :: 0 <= i < k ==>
      GenerateMany(Start(companies, trades), k).trades[i]
        == (companies[i % |companies|], trades[i % |trades|])
  {
    if k > 0 {
      TradesAfter(companies, trades, k - 1);
      CursorsAfter(companies, trades, k - 1);
      var b := GenerateMany(Start(companies, trades), k - 1);
      var g := GenerateTrade(b.next);
      var all := GenerateMany(Start(companies, trades), k).trades;
      assert all == b.trades + [g.trade];
      forall i | 0 <= i < k
        ensures all[i] == (companies[i % |companies|], trades[i % |trades|])
      {
        if i < k - 1 {
          assert all[i] == b.trades[i];
        } else {
          assert all[i] == g.trade;
        }
      }
    }
  }

  lemma ModStep(k: nat, n: int)
    requires n > 0
    ensures (k % n + 1) % n == (k + 1) % n
  {
    var q, r := k / n, k % n;
    assert k == q * n + r;
    if r + 1 < n {
      ModUnique(k + 1, q, n, r + 1);
      ModUnique(r + 1, 0, n, r + 1);
    } else {
      assert k + 1 == (q + 1) * n;
      ModUnique(k + 1, q + 1, n, 0);
      ModUnique(r + 1, 1, n, 0);
    }
  }

  /** The remainder is the unique `r` in `[0, n)` with `k == q * n + r`. */
  lemma ModUnique(k: int, q: int, n: int, r: int)
    requires n > 0 && 0 <= r < n && k == q * n + r
    ensures k % n == r
  {
    var q', r' := k / n, k % n;
    assert q * n + r == q' * n + r';
    assert (q - q') * n == r' - r;
    if q > q' {
      MulAtLeast(q - q', n);
    } else if q < q' {
      MulAtLeast(q' - q, n);
    }
  }

  lemma {:induction false} MulAtLeast(d: nat, n: nat)
    requires d >= 1
    ensures d * n >= n
  {
    if d > 1 {
      MulAtLeast(d - 1, n);
      assert d * n == (d - 1) * n + n;
    }
  }
}

=== FILE: text.dfy ===
/** The pieces of Swift's string handling the snapshot codec relies on:
    `split(separator:)` with empty pieces omitted, `String(Int)` (decimal,
    leading `-` for negatives) and `Int(String)` (optional sign, then one or
    more decimal digits, nothing else). */
module Text {
  import opened Options

  /** Splits `s` at every `sep`, dropping the empty pieces; `cur` is the piece
      collected so far. */
  function SplitFrom(s: string, sep: char, cur: string): (r: seq<string>)
    requires sep !in cur
    ensures forall p :: p in r ==> |p| > 0 && sep !in p
    decreases |s|
  {
    if s == [] then (if cur == [] then [] else [cur])
    else if s[0] == sep then (if cur == [] then [] else [cur]) + SplitFrom(s[1..], sep, [])
    else SplitFrom(s[1..], sep, cur + [s[0]])
  }

  /** `s.split(separator: sep)`: the maximal non-empty runs of `s` free of `sep`. */
  function Split(s: string, sep: char): (r: seq<string>)
    ensures forall p :: p in r ==> |p| > 0 && sep !in p
    ensures s == [] ==> r == []
  {
    SplitFrom(s, sep, [])
  }

  /** The pieces laid end to end. */
  function Concat(pieces: seq<string>): string
  {
    if pieces == [] then [] else pieces[0] + Concat(pieces[1..])
  }

  /** `s` with every `sep` removed. */
  function Without(s: string, sep: char): (r: string)
    ensures sep !in r
  {
    if s == [] then [] else (if s[0] == sep then [] else [s[0]]) + Without(s[1..], sep)
  }

  /** Splitting loses no character but the separators: the pieces laid end to
      end are `s` with its separators removed. */
  lemma SplitKeepsContent(s: string, sep: char)
    ensures Concat(Split(s, sep)) == Without(s, sep)
  {
    SplitFromKeepsContent(s, sep, []);
    assert [] + Without(s, sep) == Without(s, sep);
  }

  lemma {:induction false} SplitFromKeepsContent(s: string, sep: char, cur: string)
    requires sep !in cur
    ensures Concat(SplitFrom(s, sep, cur)) == cur + Without(s, sep)
    decreases |s|
  {
    if s == [] {
      if cur != [] {
        assert Concat([cur]) == cur + Concat([]);
      }
    } else if s[0] == sep {
      SplitFromKeepsContent(s[1..], sep, []);
      var rest := SplitFrom(s[1..], sep, []);
      if cur != [] {
        assert ([cur] + rest)[1..] == rest;
      } else {
        assert [] + rest == rest;
      }
      assert [] + Without(s[1..], sep) == Without(s[1..], sep);
    } else {
      SplitFromKeepsContent(s[1..], sep, cur + [s[0]]);
      assert cur + [s[0]] + Without(s[1..], sep) == cur + ([s[0]] + Without(s[1..], sep));
    }
  }

  /** A leading separator yields no piece: `split` omits the empty
      subsequence before it. */
  lemma SplitLeadingSeparator(rest: string, sep: char)
    ensures Split([sep] + rest, sep) == Split(rest, sep)
  {
    assert ([sep] + rest)[1..] == rest;
  }

  /** Any run of separators in front yields no piece. */
  lemma {:induction false} SplitLeadingSeparators(seps: string, rest: string, sep: char)
    requires forall i :: 0 <= i < |seps| ==> seps[i] == sep
    ensures Split(seps + rest, sep) == Split(rest, sep)
    decreases |seps|
  {
    if seps != [] {
      assert seps + rest == [sep] + (seps[1..] + rest);
      SplitLeadingSeparator(seps[1..] + rest, sep);
      SplitLeadingSeparators(seps[1..], rest, sep);
    } else {
      assert seps + rest == rest;
    }
  }

  /** Any run of separators at the end yields no piece beyond the one being
      collected. */
  lemma {:induction false} SplitFromTrailingSeparators(seps: string, sep: char, cur: string)
    requires sep !in cur
    requires forall i :: 0 <= i < |seps| ==> seps[i] == sep
    ensures SplitFrom(seps, sep, cur) == (if cur == [] then [] else [cur])
    decreases |seps|
  {
    if seps != [] {
      SplitFromTrailingSeparators(seps[1..], sep, []);
      assert SplitFrom(seps, sep, cur) == (if cur == [] then [] else [cur]) + [];
    }
  }

  /** One separator-free field between any runs of separators is at most one
      piece. */
  lemma OneFieldBetweenSeparators(before: string, field: string, after: string, sep: char)
    requires forall i :: 0 <= i < |before| ==> before[i] == sep
    requires sep !in field
    requires forall i :: 0 <= i < |after| ==> after[i] == sep
    ensures Split(before + field + after, sep) == (if field == [] then [] else [field])
  {
    assert before + field + after == before + (field + after);
    SplitLeadingSeparators(before, field + after, sep);
    SplitFromRun(field, after, sep, []);
    assert [] + field == field;
    SplitFromTrailingSeparators(after, sep, field);
  }

  /** A separator-free run is read into the current piece. */
  lemma {:induction false} SplitFromRun(a: string, rest: string, sep: char, cur: string)
    requires sep !in cur && sep !in a
    ensures SplitFrom(a + rest, sep, cur) == SplitFrom(rest, sep, cur + a)
    decreases |a|
  {
    if a == [] {
      assert a + rest == rest;
      assert cur + a == cur;
    } else {
      assert (a + rest)[0] == a[0];
      assert (a + rest)[1..] == a[1..] + rest;
      assert cur + [a[0]] + a[1..] == cur + a;
      SplitFromRun(a[1..], rest, sep, cur + [a[0]]);
    }
  }

  /** A non-empty separator-free piece followed by a separator is split off. */
  lemma SplitCons(a: string, rest: string, sep: char)
    requires |a| > 0 && sep !in a
    ensures Split(a + [sep] + rest, sep) == [a] + Split(rest, sep)
  {
    SplitFromRun(a, [sep] + rest, sep, []);
    assert a + [sep] + rest == a + ([sep] + rest);
    assert ([sep] + rest)[1..] == rest;
    assert [] + a == a;
  }

  /** A non-empty separator-free string is one piece. */
  lemma SplitSingle(a: string, sep: char)
    requires |a| > 0 && sep !in a
    ensures Split(a, sep) == [a]
  {
    SplitFromRun(a, [], sep, []);
    assert a + [] == a;
    assert [] + a == a;
  }

  /** A string without the separator has at most one piece. */
  lemma SplitWithoutSeparator(a: string, sep: char)
    requires sep !in a
    ensures |Split(a, sep)| <= 1
  {
    if a == [] {
    } else {
      SplitSingle(a, sep);
    }
  }

  predicate IsDigit(c: char)
  {
    '0' <= c <= '9'
  }

  predicate AllDigits(s: string)
  {
    forall i :: 0 <= i < |s| ==> IsDigit(s[i])
  }

  function DigitValue(c: char): nat
    requires IsDigit(c)
  {
    (c as int - '0' as int) as nat
  }

  function DigitChar(d: nat): (c: char)
    requires d < 10
    ensures IsDigit(c) && DigitValue(c) == d
  {
    ('0' as int + d) as char
  }

  /** The value of a string of decimal digits, most significant first. */
  function DigitsValue(s: string): nat
    requires AllDigits(s)
  {
    if s == [] then 0 else DigitsValue(s[..|s| - 1]) * 10 + DigitValue(s[|s| - 1])
  }

  /** The decimal digits of a natural number, without leading zeros. */
  function NatToDigits(n: nat): (s: string)
    ensures |s| > 0 && AllDigits(s)
    ensures DigitsValue(s) == n
    ensures |s| > 1 ==> s[0] != '0'
  {
    if n < 10 then [DigitChar(n)]
    else
      var s := NatToDigits(n / 10) + [DigitChar(n % 10)];
      assert s[..|s| - 1] == NatToDigits(n / 10);
      s
  }

  /** `String(i)` for an `Int`. */
  function IntToString(i: int): (s: string)
    ensures |s| > 0
    ensures forall c :: c in s ==> c == '-' || IsDigit(c)
    ensures i >= 0 ==> AllDigits(s) && DigitsValue(s) == i && (|s| > 1 ==> s[0] != '0')
    ensures i < 0 ==> |s| > 1 && s[0] == '-' && AllDigits(s[1..]) && DigitsValue(s[1..]) == -i && s[1] != '0'
  {
    if i < 0 then
      var s := "-" + NatToDigits(-i);
      assert s[1..] == NatToDigits(-i);
      s
    else NatToDigits(i)
  }

  predicate IsSign(c: char)
  {
    c == '-' || c == '+'
  }

  /** The text `Int(_:)` accepts: an optional sign, then one or more decimal
      digits, and nothing else. */
  predicate IsIntegerText(s: string)
  {
    || (|s| > 0 && AllDigits(s))
    || (|s| > 1 && IsSign(s[0]) && AllDigits(s[1..]))
  }

  /** `Int(s)`: the value of an optionally signed decimal numeral, leading
      zeros allowed; anything else is `nil`. */
  function ParseInt(s: string): (r: Option<int>)
    ensures r.Some? <==> IsIntegerText(s)
    ensures |s| > 0 && AllDigits(s) ==> r == Some(DigitsValue(s))
    ensures |s| > 1 && s[0] == '+' && AllDigits(s[1..]) ==> r == Some(DigitsValue(s[1..]))
    ensures |s| > 1 && s[0] == '-' && AllDigits(s[1..]) ==> r == Some(-(DigitsValue(s[1..]) as int))
  {
    if |s| > 0 && (s[0] == '-' || s[0] == '+') then
      if |s| > 1 && AllDigits(s[1..]) then
        var magnitude: int := DigitsValue(s[1..]);
        Some(if s[0] == '-' then -magnitude else magnitude)
      else None
    else if |s| > 0 && AllDigits(s) then Some(DigitsValue(s))
    else None
  }

  /** Printing an integer and parsing it back gives the same integer. */
  lemma ParseIntToString(i: int)
    ensures ParseInt(IntToString(i)) == Some(i)
  {
    if i < 0 {
      var s := IntToString(i);
      assert s[1..] == NatToDigits(-i);
    }
  }

  /** A string holding a character that is neither a digit nor a sign parses to nil. */
  lemma ParseIntRejects(s: string, i: int)
    requires 0 <= i < |s| && !IsDigit(s[i]) && s[i] != '-' && s[i] != '+'
    ensures ParseInt(s) == None
  {
    if |s| > 0 && (s[0] == '-' || s[0] == '+') {
      assert i > 0 && s[1..][i - 1] == s[i];
    }
  }
}
